=== FILE: README.md ===
# nacronym search core in Dafny

nacronym is a command-line acronym lookup tool. It reads a JSON term file
that maps each acronym to one definition or a list of them. It scores every
acronym against the query with a fuzzy ratio and reports the acronyms whose
score is strictly above a named threshold (`loose` 50, `medium` 70,
`strict` 90). It exits with 0 when something matched and 1 when nothing did.

This project models that core as pure functions over immutable values:

- `text.dfy` (`Text`): ASCII upper-casing, which stands in for `str.upper`.
  It also holds the decimal rendering of the definition counter (`str(int)`)
  and a parser that reads it back.
- `outcomes.dfy` (`Outcomes`): the `Option` type for lookups that can fail.
- `thresholds.dfy` (`Thresholds`): the threshold table and its lookup.
- `terms.dfy` (`Terms`): a term with its normalised definitions, the padding
  used in numbered layouts, and the lines that show the definitions.
- `results.dfy` (`Results`): the search result, `Add`, and `Print` as a
  report, meaning the printed lines plus the exit status.
- `dictionary.dfy` (`Dictionary`): turning key/value entries into terms, the
  case-aware score, the in-order search, and `Run`. `Run` chains the
  threshold lookup, the search and the status. The search is a loop
  (`Collect`, one `Add` per matching term) proved equal to a declarative
  in-order filter (`Matching`). Every value is immutable, so a search
  cannot change the dictionary it reads.

Modelling choices:

- The similarity score is the fuzzywuzzy library's `fuzz.ratio`, whose code
  is not part of this model. It is a function-valued parameter
  `ratio: (string, string) -> int`, and no property of it is assumed.
- The `--case-sensitive` flag is read from a global in the source. Here it
  is the explicit parameter `caseSensitive`.
- Output is a sequence of lines, one per `print` call. A `print(x, end='')`
  is joined with the line that follows it.
- The parsed term file is a sequence of `Entry(key, value)` pairs in file
  order, with distinct keys (`DistinctKeys`), as a JSON object read into a
  dict has. A value is `Single(text)` or `List(items)`.
- The threshold level is `Option<string>`. `None` stands for a command line
  without `-m`, which selects the documented default `strict`.

Behaviour of the program that the model keeps:

- Term construction does not check for empty keys or an empty definitions
  list. A term with no definitions prints a single blank line.
- An unknown threshold level has no error of its own. The table lookup
  raises `KeyError`, and the generic exception handler exits with status 1.
  `Run` returns 1 in that case.

## Model

| member | source | states |
|---|---|---|
| Thresholds.Threshold | src/nacronym/__init__.py:34-38 | `loose`, `medium` and `strict` map to 50, 70 and 90, and every other name has no threshold |
| Thresholds.ThresholdsOrdered | src/nacronym/__init__.py:34-38 | every threshold lies in 0..100, and loose < medium < strict |
| Thresholds.LevelName | src/nacronym/__init__.py:11 | a level given on the command line is looked up as given; without one, the level looked up has threshold 90 (strict) |
| Terms.MakeTerm | src/nacronym/__init__.py:44-54 | a bare definition becomes a one-element list holding exactly that string; a list is stored unchanged, and so is the acronym |
| Terms.SingleIsOneElementList | src/nacronym/__init__.py:48-50 | a bare definition and the one-element list holding it build the same term |
| Terms.SingleValueRendersQuoted | src/nacronym/__init__.py:49-72 | a term built from a bare definition string prints exactly that string between quotes on one line |
| Terms.Blanks | src/nacronym/__init__.py:60-62 | one blank per character of the acronym: as many characters as it has, all blanks |
| Terms.GetSpaces | src/nacronym/__init__.py:56-64 | the padding has exactly as many characters as the acronym, and all of them are blanks |
| Terms.PrintDefinitions | src/nacronym/__init__.py:66-80 | one definition gives one quoted line; otherwise a blank line comes first, then definition i on line i+1, numbered i+1 and padded to the acronym's width |
| Terms.NumberedLines | src/nacronym/__init__.py:76-80 | the k-th numbered line carries counter `count + k` and the k-th definition, quoted |
| Terms.PrintDefinitionsRoundTrip | src/nacronym/__init__.py:70-80 | every definition can be read back, in order, from the printed lines, so the layout loses and reorders nothing |
| Terms.NumberedRoundTrip | src/nacronym/__init__.py:76-80 | reading the numbered lines back yields the definitions they were printed from |
| Terms.NumberedInOrder | src/nacronym/__init__.py:76-80 | numbered line i+1 starts with the prefix and the decimal number i+1, which parses back to i+1 |
| Text.Upper | src/nacronym/__init__.py:157-158 | upper-casing keeps the length and maps each character through the ASCII upper-case map |
| Text.UpperIdempotent | src/nacronym/__init__.py:157-158 | upper-casing an upper-cased string changes nothing |
| Text.UpperIgnoresCase | src/nacronym/__init__.py:157-158 | strings that agree up to ASCII letter case upper-case to the same string |
| Text.Decimal | src/nacronym/__init__.py:79 | the counter renders as a non-empty string of digits with no leading zero |
| Text.DecimalRoundTrip | src/nacronym/__init__.py:79 | parsing the rendered counter gives back the counter |
| Text.DecimalInjective | src/nacronym/__init__.py:79 | different counters render differently |
| Results.NewResults | src/nacronym/__init__.py:86-91 | a new result holds the query and no terms |
| Results.Add | src/nacronym/__init__.py:93-97 | adding appends the term at the end; the earlier results and the query are kept |
| Results.TermLines | src/nacronym/__init__.py:111-112 | a reported term prints the same number of lines as its definitions: one definition gives the single line `term: 'text'`; otherwise `term: ` alone, then line i+1 is the number i+1, a colon, one blank per acronym character and the quoted i-th definition |
| Results.TermLinesRoundTrip | src/nacronym/__init__.py:111-112 | with `term: ` taken off the first line, a reported term's lines read back as exactly its definitions, in order |
| Results.TermBlocks | src/nacronym/__init__.py:120-123 | no terms give no lines, and one term gives its lines followed by one blank line |
| Results.TermBlocksConcat | src/nacronym/__init__.py:120-123 | the blocks of a+b are the blocks of a followed by those of b, so terms are listed in result order, each closed by a blank line |
| Results.Print | src/nacronym/__init__.py:99-125 | status 1 exactly when there are no results and 0 otherwise; no results give the no-results line, one result its term lines, and several the heading, a blank line and then the blocks of the terms |
| Results.TermBlocksIntroduce | src/nacronym/__init__.py:118-123 | every term of a multi-term report opens a line of the form `term: ` |
| Results.EveryResultReported | src/nacronym/__init__.py:109-123 | every term in a non-empty result is named on some line of the report |
| Dictionary.Parse | src/nacronym/__init__.py:147-151 | one term per entry, in file order, built from that entry's key and value |
| Dictionary.ParseKeepsKeysDistinct | src/nacronym/__init__.py:145-149 | distinct keys in the file give terms with distinct acronyms |
| Dictionary.GetMatchRatio | src/nacronym/__init__.py:153-160 | case-sensitive scoring passes the raw strings to the ratio; otherwise both are upper-cased first |
| Dictionary.IsMatch | src/nacronym/__init__.py:157-170 | a term matches exactly when the ratio of the raw strings (case sensitive) or of their upper-cased forms (otherwise) is strictly above the threshold |
| Dictionary.Matching | src/nacronym/__init__.py:168-171 | the reference filter keeps at most as many terms as it is given, and a term is kept exactly when it is in the input and scores strictly above the threshold |
| Dictionary.MatchingConcat | src/nacronym/__init__.py:168-171 | filtering a+b gives the matches of a followed by the matches of b |
| Dictionary.Collect | src/nacronym/__init__.py:166-171 | the loop keeps the query and what was collected before, and appends exactly the matching terms of the rest, in order |
| Dictionary.Search | src/nacronym/__init__.py:162-173 | the result keeps the query, equals the in-order reference filter `Matching`, and a term is in it exactly when it is in the dictionary and scores strictly above the threshold |
| Dictionary.SearchPreservesOrder | src/nacronym/__init__.py:166-173 | the matches of a dictionary a+b are the matches of a, in order, followed by those of b; nothing is re-sorted |
| Dictionary.SearchSingle | src/nacronym/__init__.py:170-171 | a one-term dictionary reports its term exactly when the score is strictly above the threshold |
| Dictionary.SearchSnoc | src/nacronym/__init__.py:168-171 | one more term at the end of the dictionary is appended to the result exactly when it matches |
| Dictionary.SearchPositions | src/nacronym/__init__.py:166-173 | the result is the dictionary's terms at strictly increasing positions, and a position is taken exactly when its term scores above the threshold |
| Dictionary.ScoreAtThresholdExcluded | src/nacronym/__init__.py:170 | a term whose score equals the threshold is not reported |
| Dictionary.CaseInsensitiveSearch | src/nacronym/__init__.py:157-160 | with case sensitivity off, two queries that upper-case alike find the same terms |
| Dictionary.MatchingRefines | src/nacronym/__init__.py:168-171 | filtering at a higher threshold what a lower one kept equals filtering at the higher threshold directly |
| Dictionary.LevelsNest | src/nacronym/__init__.py:34-38 | the strict results are the medium results that pass 90, and the medium results are the loose results that pass 70, in the same order |
| Dictionary.MatchingSameScores | src/nacronym/__init__.py:168-171 | two queries that score every term alike select the same terms |
| Dictionary.Run | src/nacronym/__init__.py:179-202 | the exit status is 0 or 1, and 0 exactly when the level is known and some entry's key scores above its threshold; without a level, 0 exactly when some key scores above 90 |
| Dictionary.SearchFindsSome | src/nacronym/__init__.py:193-199 | a search over the parsed entries finds something exactly when some entry's key scores above the threshold |
| Dictionary.LowerCaseQueryFindsAcronym | src/nacronym/__init__.py:157-160 | with case ignored, the query `nasa` finds `NASA` at the strict level when the ratio scores identical strings above 90 |
| Dictionary.UnknownLevelFails | src/nacronym/__init__.py:180 | any level name other than `loose`, `medium` or `strict` exits with status 1, whatever the dictionary and the query |

## Left out

- Reading the term file, the file-existence check and `json.loads`
  (lines 143-145, 188-190) are I/O and a library parser. The model starts
  from the parsed entries and requires distinct keys. When a JSON object
  repeats a key, `json.loads` keeps one item, at the first position and
  with the last value. The model does not cover that case.
- Definition values other than a string or a list of strings are outside
  the model: a number, `null`, a boolean, a nested object, or a list with
  non-string items. The source wraps any non-list value into a list
  (lines 49-50). Printing such a definition joins a string with a non-string
  (lines 72, 79) and raises `TypeError`. The handler then exits with 1
  (lines 215-219), even when the search matched.
- `fuzz.ratio` belongs to the fuzzywuzzy library and its code is not part
  of this model. It is a parameter, and no bounds, symmetry or empty-string
  behaviour are assumed.
- Unicode upper-casing is left out. `Upper` maps only `a`-`z`, so non-ASCII
  letters keep their case here, while `str.upper` would change them.
- docopt argument parsing, the version and help text, `os._exit` and
  `sys.exit` are process plumbing. The same goes for the top-level handler
  and the lines it prints (lines 175-222). Of `main`, `Run` keeps the
  threshold lookup, the search and the status only.
- The `file` and `data` fields of `TermDictionary` only serve file loading
  and are not modelled.

=== FILE: dictionary.dfy ===
/**
  The term dictionary and the fuzzy search over it.

  The similarity score comes from a library ratio function whose workings
  are not part of this model: it is a parameter `ratio` of every operation
  that scores, and nothing is assumed about it (no bounds, no symmetry).
  Whether the search ignores case is the explicit flag `caseSensitive`.
 */
module Dictionary {
  import opened Outcomes
  import opened Text
  import opened Thresholds
  import opened Terms
  import opened Results

  /** One key and its value, in the order the term file lists them. */
  datatype Entry = Entry(key: string, value: Definitions)

  datatype TermDictionary = TermDictionary(terms: seq<Term>)

  /** The keys of a parsed term file are distinct, as in any JSON object read into a dict. */
  predicate DistinctKeys(entries: seq<Entry>) {
    forall i, j :: 0 <= i < j < |entries| ==> entries[i].key != entries[j].key
  }

  /** Turns every key/value pair into a term, keeping the file's order. */
  function Parse(entries: seq<Entry>): (d: TermDictionary)
    requires DistinctKeys(entries)
    ensures |d.terms| == |entries|
    ensures forall i :: 0 <= i < |entries| ==> d.terms[i] == MakeTerm(entries[i].key, entries[i].value)
  {
    if entries == [] then TermDictionary([])
    else
      assert DistinctKeys(entries[1..]) by {
        forall i, j | 0 <= i < j < |entries[1..]|
          ensures entries[1..][i].key != entries[1..][j].key
        {
          assert entries[1..][i] == entries[i + 1] && entries[1..][j] == entries[j + 1];
        }
      }
      TermDictionary([MakeTerm(entries[0].key, entries[0].value)] + Parse(entries[1..]).terms)
  }

  /** Distinct keys give distinct terms: no acronym is listed twice. */
  lemma ParseKeepsKeysDistinct(entries: seq<Entry>)
    requires DistinctKeys(entries)
    ensures forall i, j :: 0 <= i < j < |entries| ==> Parse(entries).terms[i].term != Parse(entries).terms[j].term
  {
  }

  /**
    The score of a term against the query. Unless the search is case
    sensitive, both strings are upper-cased before they are compared.
   */
  function GetMatchRatio(search: string, term: string, caseSensitive: bool,
                         ratio: (string, string) -> int): (score: int)
    ensures caseSensitive ==> score == ratio(search, term)
    ensures !caseSensitive ==> score == ratio(Upper(search), Upper(term))
  {
    var s := if caseSensitive then search else Upper(search);
    var t := if caseSensitive then term else Upper(term);
    ratio(s, t)
  }

  /**
    A term is reported when its score is strictly above the threshold: the
    raw strings are compared when the search is case sensitive, their
    upper-cased forms otherwise.
   */
  predicate IsMatch(t: Term, search: string, threshold: int, caseSensitive: bool,
                    ratio: (string, string) -> int)
    ensures caseSensitive ==>
              (IsMatch(t, search, threshold, caseSensitive, ratio) <==> ratio(search, t.term) > threshold)
    ensures !caseSensitive ==>
              (IsMatch(t, search, threshold, caseSensitive, ratio) <==> ratio(Upper(search), Upper(t.term)) > threshold)
  {
    GetMatchRatio(search, t.term, caseSensitive, ratio) > threshold
  }

  /**
    The matching terms of `terms`, in their original order: the reference
    the search is measured against.
   */
  function Matching(terms: seq<Term>, search: string, threshold: int, caseSensitive: bool,
                    ratio: (string, string) -> int): (r: seq<Term>)
    ensures |r| <= |terms|
    ensures forall t :: t in r <==> t in terms && IsMatch(t, search, threshold, caseSensitive, ratio)
    decreases |terms|
  {
    if terms == [] then []
    else
      var rest := Matching(terms[1..], search, threshold, caseSensitive, ratio);
      assert terms == [terms[0]] + terms[1..];
      if IsMatch(terms[0], search, threshold, caseSensitive, ratio) then [terms[0]] + rest else rest
  }

  /** Filtering two runs of terms one after the other is filtering their concatenation. */
  lemma {:induction false} MatchingConcat(a: seq<Term>, b: seq<Term>, search: string, threshold: int,
                                          caseSensitive: bool, ratio: (string, string) -> int)
    ensures Matching(a + b, search, threshold, caseSensitive, ratio)
         == Matching(a, search, threshold, caseSensitive, ratio) + Matching(b, search, threshold, caseSensitive, ratio)
    decreases |a|
  {
    if a == [] {
      assert a + b == b;
    } else {
      assert (a + b)[0] == a[0];
      assert (a + b)[1..] == a[1..] + b;
      MatchingConcat(a[1..], b, search, threshold, caseSensitive, ratio);
    }
  }

  /**
    Walks `rest` in order and adds every matching term to `acc`: the loop
    of the search, one term per step. What it adds is exactly the matching
    terms of `rest`, in order, behind what was collected before.
   */
  function Collect(acc: TermResults, rest: seq<Term>, threshold: int, caseSensitive: bool,
                   ratio: (string, string) -> int): (r: TermResults)
    ensures r.search == acc.search
    ensures r.terms == acc.terms + Matching(rest, acc.search, threshold, caseSensitive, ratio)
    decreases |rest|
  {
    if rest == [] then acc
    else
      var keep := IsMatch(rest[0], acc.search, threshold, caseSensitive, ratio);
      var next := if keep then Add(acc, rest[0]) else acc;
      var later := Matching(rest[1..], acc.search, threshold, caseSensitive, ratio);
      assert Matching(rest, acc.search, threshold, caseSensitive, ratio)
          == (if keep then [rest[0]] else []) + later;
      assert next.terms + later == acc.terms + ((if keep then [rest[0]] else []) + later);
      Collect(next, rest[1..], threshold, caseSensitive, ratio)
  }

  /**
    Searches the dictionary: the result keeps the query and holds exactly
    the terms whose score is strictly greater than the threshold.
   */
  function Search(d: TermDictionary, search: string, threshold: int, caseSensitive: bool,
                  ratio: (string, string) -> int): (r: TermResults)
    ensures r.search == search
    ensures r.terms == Matching(d.terms, search, threshold, caseSensitive, ratio)
    ensures |r.terms| <= |d.terms|
    ensures forall t :: t in r.terms <==>
              t in d.terms && GetMatchRatio(search, t.term, caseSensitive, ratio) > threshold
  {
    Collect(NewResults(search), d.terms, threshold, caseSensitive, ratio)
  }

  /**
    Results are never re-sorted: searching a dictionary made of two parts
    reports the matches of the first part, in order, before those of the
    second.
   */
  lemma SearchPreservesOrder(a: seq<Term>, b: seq<Term>, search: string, threshold: int,
                             caseSensitive: bool, ratio: (string, string) -> int)
    ensures Search(TermDictionary(a + b), search, threshold, caseSensitive, ratio).terms
         == Search(TermDictionary(a), search, threshold, caseSensitive, ratio).terms
            + Search(TermDictionary(b), search, threshold, caseSensitive, ratio).terms
  {
    MatchingConcat(a, b, search, threshold, caseSensitive, ratio);
  }

  /** A dictionary of one term reports it exactly when it matches. */
  lemma SearchSingle(t: Term, search: string, threshold: int, caseSensitive: bool,
                     ratio: (string, string) -> int)
    ensures Search(TermDictionary([t]), search, threshold, caseSensitive, ratio).terms
         == if GetMatchRatio(search, t.term, caseSensitive, ratio) > threshold then [t] else []
  {
  }

  /** `idx` picks out `ys` from `xs` at strictly increasing positions. */
  ghost predicate Embeds(idx: seq<nat>, xs: seq<Term>, ys: seq<Term>) {
    && |idx| == |ys|
    && (forall k :: 0 <= k < |idx| ==> idx[k] < |xs| && xs[idx[k]] == ys[k])
    && (forall k, l :: 0 <= k < l < |idx| ==> idx[k] < idx[l])
  }

  /**
    The result is an order-preserving subsequence of the dictionary: the
    returned positions are increasing, and a position is among them exactly
    when the term there matches.
   */
  lemma {:induction false} SearchPositions(d: TermDictionary, search: string, threshold: int,
                                           caseSensitive: bool, ratio: (string, string) -> int)
    returns (idx: seq<nat>)
    ensures Embeds(idx, d.terms, Search(d, search, threshold, caseSensitive, ratio).terms)
    ensures forall i :: 0 <= i < |d.terms| ==>
              (i in idx <==> GetMatchRatio(search, d.terms[i].term, caseSensitive, ratio) > threshold)
    decreases |d.terms|
  {
    if d.terms == [] {
      idx := [];
    } else {
      var n := |d.terms|;
      var front := d.terms[..n - 1];
      assert d.terms == front + [d.terms[n - 1]];
      var before := SearchPositions(TermDictionary(front), search, threshold, caseSensitive, ratio);
      idx := SearchPositionsStep(front, d.terms[n - 1], before, search, threshold, caseSensitive, ratio);
    }
  }

  /** The inductive step of `SearchPositions`: one more term at the end of the dictionary. */
  lemma SearchPositionsStep(front: seq<Term>, last: Term, before: seq<nat>, search: string, threshold: int,
                            caseSensitive: bool, ratio: (string, string) -> int)
    returns (idx: seq<nat>)
    requires Embeds(before, front, Search(TermDictionary(front), search, threshold, caseSensitive, ratio).terms)
    requires forall i :: 0 <= i < |front| ==>
               (i in before <==> GetMatchRatio(search, front[i].term, caseSensitive, ratio) > threshold)
    ensures Embeds(idx, front + [last], Search(TermDictionary(front + [last]), search, threshold, caseSensitive, ratio).terms)
    ensures forall i :: 0 <= i < |front + [last]| ==>
              (i in idx <==> GetMatchRatio(search, (front + [last])[i].term, caseSensitive, ratio) > threshold)
  {
    var keep := IsMatch(last, search, threshold, caseSensitive, ratio);
    SearchSnoc(front, last, search, threshold, caseSensitive, ratio);
    idx := EmbedsExtend(before, front, Search(TermDictionary(front), search, threshold, caseSensitive, ratio).terms,
                        last, keep);
    PositionsSnoc(before, front, last, search, threshold, caseSensitive, ratio);
  }

  /** Searching with one more term at the end appends that term when it matches. */
  lemma SearchSnoc(front: seq<Term>, last: Term, search: string, threshold: int,
                   caseSensitive: bool, ratio: (string, string) -> int)
    ensures Search(TermDictionary(front + [last]), search, threshold, caseSensitive, ratio).terms
         == Search(TermDictionary(front), search, threshold, caseSensitive, ratio).terms
            + if IsMatch(last, search, threshold, caseSensitive, ratio) then [last] else []
  {
    SearchPreservesOrder(front, [last], search, threshold, caseSensitive, ratio);
    SearchSingle(last, search, threshold, caseSensitive, ratio);
  }

  /** Positions of the matching terms, extended by one more term at the end. */
  lemma PositionsSnoc(before: seq<nat>, front: seq<Term>, last: Term, search: string, threshold: int,
                      caseSensitive: bool, ratio: (string, string) -> int)
    requires forall k :: 0 <= k < |before| ==> before[k] < |front|
    requires forall i :: 0 <= i < |front| ==>
               (i in before <==> GetMatchRatio(search, front[i].term, caseSensitive, ratio) > threshold)
    ensures var idx := before + if IsMatch(last, search, threshold, caseSensitive, ratio) then [|front|] else [];
            forall i :: 0 <= i < |front + [last]| ==>
              (i in idx <==> GetMatchRatio(search, (front + [last])[i].term, caseSensitive, ratio) > threshold)
  {
    var all := front + [last];
    var idx := before + if IsMatch(last, search, threshold, caseSensitive, ratio) then [|front|] else [];
    assert |front| !in before;
    forall i | 0 <= i < |all|
      ensures i in idx <==> GetMatchRatio(search, all[i].term, caseSensitive, ratio) > threshold
    {
      if i < |front| {
        assert all[i] == front[i];
      }
    }
  }

  /** Extends a position witness by one more term, taken or not. */
  lemma EmbedsExtend(before: seq<nat>, xs: seq<Term>, ys: seq<Term>, last: Term, keep: bool)
    returns (idx: seq<nat>)
    requires Embeds(before, xs, ys)
    ensures Embeds(idx, xs + [last], ys + if keep then [last] else [])
    ensures idx == before + if keep then [|xs|] else []
  {
    idx := before + if keep then [|xs|] else [];
    var zs := xs + [last];
    forall k | 0 <= k < |before|
      ensures idx[k] < |zs| && zs[idx[k]] == xs[before[k]]
    {
    }
  }

  /** A score equal to the threshold is not enough. */
  lemma ScoreAtThresholdExcluded(d: TermDictionary, t: Term, search: string, threshold: int,
                                 caseSensitive: bool, ratio: (string, string) -> int)
    requires GetMatchRatio(search, t.term, caseSensitive, ratio) == threshold
    ensures t !in Search(d, search, threshold, caseSensitive, ratio).terms
  {
  }

  /** Two filters over the same terms with scores that agree term by term keep the same terms. */
  lemma {:induction false} MatchingSameScores(terms: seq<Term>, q1: string, q2: string, threshold: int,
                                              caseSensitive: bool, ratio: (string, string) -> int)
    requires forall t :: t in terms ==>
               GetMatchRatio(q1, t.term, caseSensitive, ratio) == GetMatchRatio(q2, t.term, caseSensitive, ratio)
    ensures Matching(terms, q1, threshold, caseSensitive, ratio) == Matching(terms, q2, threshold, caseSensitive, ratio)
    decreases |terms|
  {
    if terms != [] {
      assert terms[0] in terms;
      assert forall t :: t in terms[1..] ==> t in terms;
      MatchingSameScores(terms[1..], q1, q2, threshold, caseSensitive, ratio);
    }
  }

  /**
    With case sensitivity off, only the upper-cased query matters: two
    queries that upper-case alike find the same terms.
   */
  lemma CaseInsensitiveSearch(d: TermDictionary, q1: string, q2: string, threshold: int,
                              ratio: (string, string) -> int)
    requires Upper(q1) == Upper(q2)
    ensures Search(d, q1, threshold, false, ratio).terms == Search(d, q2, threshold, false, ratio).terms
  {
    MatchingSameScores(d.terms, q1, q2, threshold, false, ratio);
  }

  /**
    Filtering at a higher threshold what a lower threshold kept is filtering
    at the higher threshold directly.
   */
  lemma {:induction false} MatchingRefines(terms: seq<Term>, search: string, lo: int, hi: int,
                                           caseSensitive: bool, ratio: (string, string) -> int)
    requires lo <= hi
    ensures Matching(Matching(terms, search, lo, caseSensitive, ratio), search, hi, caseSensitive, ratio)
         == Matching(terms, search, hi, caseSensitive, ratio)
    decreases |terms|
  {
    if terms != [] {
      MatchingRefines(terms[1..], search, lo, hi, caseSensitive, ratio);
      var rest := Matching(terms[1..], search, lo, caseSensitive, ratio);
      if IsMatch(terms[0], search, lo, caseSensitive, ratio) {
        assert ([terms[0]] + rest)[1..] == rest;
      }
    }
  }

  /**
    The levels nest: the strict results are the medium results that also
    pass the strict threshold, and the medium results are the loose results
    that also pass the medium threshold, in the same order.
   */
  lemma LevelsNest(d: TermDictionary, search: string, caseSensitive: bool, ratio: (string, string) -> int)
    ensures var loose := Search(d, search, Threshold("loose").value, caseSensitive, ratio).terms;
            var medium := Search(d, search, Threshold("medium").value, caseSensitive, ratio).terms;
            var strict := Search(d, search, Threshold("strict").value, caseSensitive, ratio).terms;
            && strict == Matching(medium, search, Threshold("strict").value, caseSensitive, ratio)
            && medium == Matching(loose, search, Threshold("medium").value, caseSensitive, ratio)
  {
    MatchingRefines(d.terms, search, 70, 90, caseSensitive, ratio);
    MatchingRefines(d.terms, search, 50, 70, caseSensitive, ratio);
  }

  /**
    The tool from the threshold level onwards: look the level up (the strict
    level when none is given), parse the entries, search, and return the
    exit status of the report. An unknown level makes the lookup fail and
    the tool exit with 1 before searching.
   */
  function Run(entries: seq<Entry>, search: string, level: Option<string>, caseSensitive: bool,
               ratio: (string, string) -> int): (status: int)
    requires DistinctKeys(entries)
    ensures status == 0 || status == 1
    ensures status == 0 <==>
              && Threshold(LevelName(level)).Some?
              && exists i :: 0 <= i < |entries| &&
                   GetMatchRatio(search, entries[i].key, caseSensitive, ratio) > Threshold(LevelName(level)).value
    ensures level.None? ==>
              (status == 0 <==> exists i :: 0 <= i < |entries| &&
                                  GetMatchRatio(search, entries[i].key, caseSensitive, ratio) > 90)
  {
    match Threshold(LevelName(level))
    case None => 1
    case Some(threshold) =>
      SearchFindsSome(entries, search, threshold, caseSensitive, ratio);
      Print(Search(Parse(entries), search, threshold, caseSensitive, ratio)).status
  }

  /** A search over parsed entries finds something exactly when some entry's key scores above the threshold. */
  lemma SearchFindsSome(entries: seq<Entry>, search: string, threshold: int, caseSensitive: bool,
                        ratio: (string, string) -> int)
    requires DistinctKeys(entries)
    ensures |Search(Parse(entries), search, threshold, caseSensitive, ratio).terms| > 0 <==>
              exists i :: 0 <= i < |entries| &&
                GetMatchRatio(search, entries[i].key, caseSensitive, ratio) > threshold
  {
    if |Search(Parse(entries), search, threshold, caseSensitive, ratio).terms| > 0 {
      var i := FoundEntry(entries, search, threshold, caseSensitive, ratio);
    }
    if exists i :: 0 <= i < |entries| && GetMatchRatio(search, entries[i].key, caseSensitive, ratio) > threshold {
      var i :| 0 <= i < |entries| && GetMatchRatio(search, entries[i].key, caseSensitive, ratio) > threshold;
      EntryFound(entries, i, search, threshold, caseSensitive, ratio);
    }
  }

  /** A reported term comes from some entry whose key scores above the threshold. */
  lemma FoundEntry(entries: seq<Entry>, search: string, threshold: int, caseSensitive: bool,
                   ratio: (string, string) -> int) returns (i: nat)
    requires DistinctKeys(entries)
    requires |Search(Parse(entries), search, threshold, caseSensitive, ratio).terms| > 0
    ensures i < |entries| && GetMatchRatio(search, entries[i].key, caseSensitive, ratio) > threshold
  {
    var d := Parse(entries);
    var t := FirstFound(d, search, threshold, caseSensitive, ratio);
    i :| 0 <= i < |d.terms| && d.terms[i] == t;
    ParsedKey(entries, i);
  }

  /** The first reported term is a dictionary term that scores above the threshold. */
  lemma FirstFound(d: TermDictionary, search: string, threshold: int, caseSensitive: bool,
                   ratio: (string, string) -> int) returns (t: Term)
    requires |Search(d, search, threshold, caseSensitive, ratio).terms| > 0
    ensures t in d.terms && GetMatchRatio(search, t.term, caseSensitive, ratio) > threshold
  {
    t := Search(d, search, threshold, caseSensitive, ratio).terms[0];
  }

  /** The term parsed from entry `i` carries that entry's key. */
  lemma ParsedKey(entries: seq<Entry>, i: nat)
    requires DistinctKeys(entries) && i < |entries|
    ensures Parse(entries).terms[i].term == entries[i].key
  {
  }

  /** An entry whose key scores above the threshold gets its term reported. */
  lemma {:induction false} EntryFound(entries: seq<Entry>, i: int, search: string, threshold: int,
                                      caseSensitive: bool, ratio: (string, string) -> int)
    requires DistinctKeys(entries)
    requires 0 <= i < |entries|
    requires GetMatchRatio(search, entries[i].key, caseSensitive, ratio) > threshold
    ensures |Search(Parse(entries), search, threshold, caseSensitive, ratio).terms| > 0
  {
    var d := Parse(entries);
    var t := d.terms[i];
    assert t.term == entries[i].key;
    assert t in d.terms;
    assert t in Search(d, search, threshold, caseSensitive, ratio).terms;
  }

  /**
    A lower-case query finds an upper-case acronym when case is ignored,
    provided the ratio scores identical strings above the strict threshold.
   */
  lemma LowerCaseQueryFindsAcronym(ratio: (string, string) -> int)
    requires ratio("NASA", "NASA") > 90
    ensures Run([Entry("NASA", Single("National Aeronautics and Space Administration"))],
                "nasa", Some("strict"), false, ratio) == 0
  {
    assert Upper("nasa") == "NASA";
    assert Upper("NASA") == "NASA";
  }

  /** Any level name outside the table fails, whatever the dictionary holds. */
  lemma UnknownLevelFails(entries: seq<Entry>, search: string, level: string, caseSensitive: bool,
                          ratio: (string, string) -> int)
    requires DistinctKeys(entries)
    requires level != "loose" && level != "medium" && level != "strict"
    ensures Run(entries, search, Some(level), caseSensitive, ratio) == 1
  {
  }
}

=== FILE: outcomes.dfy ===
/** The optional value used where the tool's lookups can fail. */
module Outcomes {

  datatype Option<+T> = None | Some(value: T)
}

=== FILE: results.dfy ===
/**
  The outcome of one search: the query as typed and the matching terms in
  the order they were found, and the report the tool prints for it together
  with the exit status it returns.
 */
module Results {
  import opened Text
  import opened Terms

  datatype TermResults = TermResults(search: string, terms: seq<Term>)

  /** The lines printed for a search and the status the process exits with. */
  datatype Report = Report(status: int, lines: seq<string>)

  /** An empty result for `search`. */
  function NewResults(search: string): (r: TermResults)
    ensures r.search == search && |r.terms| == 0
  {
    TermResults(search, [])
  }

  /** Appends one term behind the results found so far; the query is kept. */
  function Add(r: TermResults, t: Term): (r': TermResults)
    ensures r'.search == r.search
    ensures |r'.terms| == |r.terms| + 1
    ensures r'.terms[..|r.terms|] == r.terms && r'.terms[|r.terms|] == t
  {
    TermResults(r.search, r.terms + [t])
  }

  /**
    The lines for one reported term: the acronym and a colon open the first
    line of its definitions (the acronym is printed without a line break).
   */
  function TermLines(t: Term): (lines: seq<string>)
    ensures |lines| == |PrintDefinitions(t, "")|
    ensures Introduces(lines[0], t)
    ensures |t.definitions| == 1 ==> lines == [t.term + ": " + Quote(t.definitions[0])]
    ensures |t.definitions| != 1 ==>
              && lines[0] == t.term + ": "
              && forall i :: 0 <= i < |t.definitions| ==>
                   lines[i + 1] == Decimal(i + 1) + ":" + GetSpaces(t) + Quote(t.definitions[i])
  {
    var defs := PrintDefinitions(t, "");
    assert (t.term + ": ") + defs[0] == t.term + ": " + defs[0];
    assert |t.definitions| == 1 ==> defs[0] == Quote(t.definitions[0]) by {
      if |t.definitions| == 1 {
        assert "" + Quote(t.definitions[0]) == Quote(t.definitions[0]);
      }
    }
    assert |t.definitions| != 1 ==> defs[0] == "" && t.term + ": " + defs[0] == t.term + ": ";
    assert |t.definitions| != 1 ==> forall i :: 0 <= i < |t.definitions| ==>
             defs[i + 1] == Decimal(i + 1) + ":" + GetSpaces(t) + Quote(t.definitions[i]) by {
      if |t.definitions| != 1 {
        forall i | 0 <= i < |t.definitions|
          ensures defs[i + 1] == Decimal(i + 1) + ":" + GetSpaces(t) + Quote(t.definitions[i])
        {
          assert "" + Decimal(i + 1) == Decimal(i + 1);
        }
      }
    }
    [t.term + ": " + defs[0]] + defs[1..]
  }

  /**
    A reported term's lines show all its definitions: with the acronym and
    colon taken off the first line, they read back as the definitions.
   */
  lemma TermLinesRoundTrip(t: Term)
    ensures var lines := TermLines(t);
            ReadDefinitions([lines[0][|t.term| + 2..]] + lines[1..], "", |t.term|) == t.definitions
  {
    var defs := PrintDefinitions(t, "");
    var lines := TermLines(t);
    assert lines[0][|t.term| + 2..] == defs[0];
    assert [lines[0][|t.term| + 2..]] + lines[1..] == defs;
    PrintDefinitionsRoundTrip(t, "");
  }

  /** The blocks for several reported terms, each followed by a blank line. */
  function TermBlocks(terms: seq<Term>): (lines: seq<string>)
    ensures |terms| == 0 <==> |lines| == 0
    ensures |terms| == 1 ==> lines == TermLines(terms[0]) + [""]
  {
    if terms == [] then [] else TermLines(terms[0]) + [""] + TermBlocks(terms[1..])
  }

  /**
    The report for a result. No match prints a "no results" line and exits
    with 1; one match prints that term alone; several matches print a
    heading, a blank line and one block per term. Any match exits with 0.
   */
  function Print(r: TermResults): (rep: Report)
    ensures rep.status == 1 <==> |r.terms| == 0
    ensures rep.status == 0 <==> |r.terms| > 0
    ensures |r.terms| == 0 ==> rep.lines == ["No results for '" + r.search + "'"]
    ensures |r.terms| == 1 ==> rep.lines == TermLines(r.terms[0])
    ensures |r.terms| > 1 ==>
              && |rep.lines| > 2
              && rep.lines[0] == "Possible Matches for '" + r.search + "':"
              && rep.lines[1] == ""
              && rep.lines[2..] == TermBlocks(r.terms)
  {
    if |r.terms| == 0 then
      Report(1, ["No results for '" + r.search + "'"])
    else if |r.terms| == 1 then
      Report(0, TermLines(r.terms[0]))
    else
      Report(0, ["Possible Matches for '" + r.search + "':", ""] + TermBlocks(r.terms))
  }

  /**
    The blocks of two runs of terms are the blocks of the first run followed
    by those of the second: the report lists the terms in result order, each
    block closed by its blank line.
   */
  lemma {:induction false} TermBlocksConcat(a: seq<Term>, b: seq<Term>)
    ensures TermBlocks(a + b) == TermBlocks(a) + TermBlocks(b)
    decreases |a|
  {
    if a == [] {
      assert a + b == b;
    } else {
      assert (a + b)[0] == a[0];
      assert (a + b)[1..] == a[1..] + b;
      var head := TermLines(a[0]) + [""];
      calc {
        TermBlocks(a + b);
        head + TermBlocks(a[1..] + b);
        { TermBlocksConcat(a[1..], b); }
        head + (TermBlocks(a[1..]) + TermBlocks(b));
        { AppendAssoc(head, TermBlocks(a[1..]), TermBlocks(b)); }
        (head + TermBlocks(a[1..])) + TermBlocks(b);
        TermBlocks(a) + TermBlocks(b);
      }
    }
  }

  lemma AppendAssoc<T>(x: seq<T>, y: seq<T>, z: seq<T>)
    ensures x + (y + z) == (x + y) + z
  {
  }

  /** The line on which a term's block starts names the term. */
  predicate Introduces(line: string, t: Term) {
    t.term + ": " <= line
  }

  /** Every block of `TermBlocks` begins with a line introducing its term; `j` is that line. */
  lemma {:induction false} TermBlocksIntroduce(terms: seq<Term>, k: nat) returns (j: nat)
    requires k < |terms|
    ensures j < |TermBlocks(terms)| && Introduces(TermBlocks(terms)[j], terms[k])
    decreases k
  {
    if k == 0 {
      FirstBlockLine(terms);
      j := 0;
    } else {
      var j' := TermBlocksIntroduce(terms[1..], k - 1);
      assert terms[1..][k - 1] == terms[k];
      j := LaterBlockLine(terms, j');
    }
  }

  /** The first line of the blocks is the first line of the first term's block. */
  lemma FirstBlockLine(terms: seq<Term>)
    requires |terms| > 0
    ensures |TermBlocks(terms)| > 0 && TermBlocks(terms)[0] == TermLines(terms[0])[0]
  {
    assert |TermLines(terms[0])| > 0;
  }

  /** Line `j'` of the later blocks is line `j` of all blocks. */
  lemma LaterBlockLine(terms: seq<Term>, j': nat) returns (j: nat)
    requires |terms| > 0 && j' < |TermBlocks(terms[1..])|
    ensures j < |TermBlocks(terms)| && TermBlocks(terms)[j] == TermBlocks(terms[1..])[j']
  {
    var head := TermLines(terms[0]) + [""];
    IndexAfter(head, TermBlocks(terms[1..]), j');
    j := |head| + j';
  }

  lemma IndexAfter<T>(a: seq<T>, b: seq<T>, i: nat)
    requires i < |b|
    ensures |a| + i < |a + b| && (a + b)[|a| + i] == b[i]
  {
  }

  /** Every term in a non-empty result is named on some line of its report; `j` is that line. */
  lemma EveryResultReported(r: TermResults, k: nat) returns (j: nat)
    requires k < |r.terms|
    ensures j < |Print(r).lines| && Introduces(Print(r).lines[j], r.terms[k])
  {
    if |r.terms| == 1 {
      j := 0;
    } else {
      var j' := TermBlocksIntroduce(r.terms, k);
      j := ReportedAfterHeading(r, j');
    }
  }

  /** In a report of several terms, block line `j'` is report line `j' + 2`. */
  lemma ReportedAfterHeading(r: TermResults, j': nat) returns (j: nat)
    requires |r.terms| > 1 && j' < |TermBlocks(r.terms)|
    ensures j == j' + 2 && j < |Print(r).lines| && Print(r).lines[j] == TermBlocks(r.terms)[j']
  {
    var heading := ["Possible Matches for '" + r.search + "':", ""];
    var blocks := TermBlocks(r.terms);
    assert Print(r).lines == heading + blocks;
    j := j' + 2;
  }
}

=== FILE: terms.dfy ===
/**
  A dictionary entry: an acronym and the definitions it expands to, and the
  way the tool lays those definitions out. Output is modelled as the
  sequence of lines the tool prints, one per `print` call, without the
  trailing newline.
 */
module Terms {
  import opened Text

  /**
    A definitions value as it comes out of the term file: a bare string, or
    a list of strings.
   */
  datatype Definitions = Single(text: string) | List(items: seq<string>)

  /** An acronym and its definitions, always held as a list. */
  datatype Term = Term(term: string, definitions: seq<string>)

  /**
    Builds a term. A bare definition string becomes a one-element list; a
    list is stored as given, and so is the acronym.
   */
  function MakeTerm(term: string, value: Definitions): (t: Term)
    ensures t.term == term
    ensures value.Single? ==> |t.definitions| == 1 && t.definitions[0] == value.text
    ensures value.List? ==> t.definitions == value.items
  {
    match value
    case Single(text) => Term(term, [text])
    case List(items) => Term(term, items)
  }

  /** A bare definition and a one-element list holding it build the same term. */
  lemma SingleIsOneElementList(term: string, text: string)
    ensures MakeTerm(term, Single(text)) == MakeTerm(term, List([text]))
  {
  }

  /** A term built from a bare definition string prints as that string, quoted, on one line. */
  lemma {:induction false} SingleValueRendersQuoted(term: string, text: string, prefix: string)
    ensures PrintDefinitions(MakeTerm(term, Single(text)), prefix) == [prefix + "'" + text + "'"]
  {
    var t := MakeTerm(term, Single(text));
    assert PrintDefinitions(t, prefix) == [prefix + Quote(text)];
    assert prefix + Quote(text) == prefix + "'" + text + "'";
  }

  /** The padding of a term: one blank for every character of the acronym. */
  function GetSpaces(t: Term): (s: string)
    ensures |s| == |t.term|
    ensures forall i :: 0 <= i < |s| ==> s[i] == ' '
  {
    Blanks(t.term)
  }

  /** One blank per character of `chars`, appended left to right. */
  function Blanks(chars: string): (s: string)
    ensures |s| == |chars|
    ensures forall i :: 0 <= i < |s| ==> s[i] == ' '
  {
    if chars == [] then "" else Blanks(chars[..|chars| - 1]) + " "
  }

  function Quote(s: string): string {
    "'" + s + "'"
  }

  /**
    The lines that show a term's definitions. A single definition is one
    quoted line; otherwise a blank line comes first, then every definition
    on its own line, numbered from 1 in the order stored.
   */
  function PrintDefinitions(t: Term, prefix: string): (lines: seq<string>)
    ensures |lines| >= 1
    ensures |t.definitions| == 1 ==> lines == [prefix + Quote(t.definitions[0])]
    ensures |t.definitions| != 1 ==>
              && |lines| == |t.definitions| + 1
              && lines[0] == ""
              && forall i :: 0 <= i < |t.definitions| ==>
                   lines[i + 1] == prefix + Decimal(i + 1) + ":" + GetSpaces(t) + Quote(t.definitions[i])
  {
    if |t.definitions| == 1 then
      [prefix + Quote(t.definitions[0])]
    else
      [""] + NumberedLines(t.definitions, 1, prefix, GetSpaces(t))
  }

  /** The numbered lines for `defs`, the first of them carrying number `count`. */
  function NumberedLines(defs: seq<string>, count: nat, prefix: string, spaces: string): (lines: seq<string>)
    ensures |lines| == |defs|
    ensures forall i :: 0 <= i < |defs| ==>
              lines[i] == prefix + Decimal(count + i) + ":" + spaces + Quote(defs[i])
  {
    if defs == [] then []
    else [prefix + Decimal(count) + ":" + spaces + Quote(defs[0])]
         + NumberedLines(defs[1..], count + 1, prefix, spaces)
  }

  /** The text between the quotes of a line whose first `skip` characters are its header. */
  function Unquote(line: string, skip: nat): string {
    if skip + 2 <= |line| then line[skip + 1..|line| - 1] else ""
  }

  /**
    Reads the definitions back from the lines of `PrintDefinitions`, given
    the prefix and the width of the acronym.
   */
  function ReadDefinitions(lines: seq<string>, prefix: string, width: nat): seq<string> {
    if |lines| == 0 then []
    else if lines[0] != "" then [Unquote(lines[0], |prefix|)]
    else ReadNumbered(lines[1..], 1, prefix, width)
  }

  /** Reads back numbered lines, the first of them carrying number `count`. */
  function ReadNumbered(lines: seq<string>, count: nat, prefix: string, width: nat): seq<string> {
    if lines == [] then []
    else [Unquote(lines[0], |prefix| + |Decimal(count)| + 1 + width)]
         + ReadNumbered(lines[1..], count + 1, prefix, width)
  }

  /**
    The layout loses nothing: every definition, in its original position,
    can be read back from the printed lines.
   */
  lemma PrintDefinitionsRoundTrip(t: Term, prefix: string)
    ensures ReadDefinitions(PrintDefinitions(t, prefix), prefix, |t.term|) == t.definitions
  {
    if |t.definitions| == 1 {
      UnquoteAfterHeader(prefix, t.definitions[0]);
    } else {
      var lines := PrintDefinitions(t, prefix);
      assert lines[1..] == NumberedLines(t.definitions, 1, prefix, GetSpaces(t));
      NumberedRoundTrip(t.definitions, 1, prefix, GetSpaces(t));
    }
  }

  lemma {:induction false} NumberedRoundTrip(defs: seq<string>, count: nat, prefix: string, spaces: string)
    ensures ReadNumbered(NumberedLines(defs, count, prefix, spaces), count, prefix, |spaces|) == defs
    decreases |defs|
  {
    if defs != [] {
      var lines := NumberedLines(defs, count, prefix, spaces);
      var header := prefix + Decimal(count) + ":" + spaces;
      assert lines[0] == header + Quote(defs[0]);
      UnquoteAfterHeader(header, defs[0]);
      assert lines[1..] == NumberedLines(defs[1..], count + 1, prefix, spaces);
      NumberedRoundTrip(defs[1..], count + 1, prefix, spaces);
    }
  }

  lemma UnquoteAfterHeader(header: string, text: string)
    ensures Unquote(header + Quote(text), |header|) == text
  {
    assert (header + Quote(text))[|header| + 1..|header| + 1 + |text|] == text;
  }

  /** Each numbered line names its position: line `i + 1` carries the number `i + 1`. */
  lemma NumberedInOrder(t: Term, prefix: string, i: nat)
    requires |t.definitions| != 1
    requires i < |t.definitions|
    ensures var line := PrintDefinitions(t, prefix)[i + 1];
            var digits := Decimal(i + 1);
            && line[..|prefix| + |digits|] == prefix + digits
            && ParseDecimal(digits) == i + 1
  {
    DecimalRoundTrip(i + 1);
    var digits := Decimal(i + 1);
    var line := PrintDefinitions(t, prefix)[i + 1];
    assert line == (prefix + digits) + (":" + GetSpaces(t) + Quote(t.definitions[i]));
  }
}

=== FILE: text.dfy ===
/**
  String helpers the acronym tool relies on: ASCII upper-casing (the model
  of Python's `str.upper` on the characters a term file normally holds) and
  the decimal rendering of a positive counter (Python's `str(int)`), together
  with the parser that undoes it.
 */
module Text {

  predicate IsLower(c: char) {
    'a' <= c <= 'z'
  }

  predicate IsDigit(c: char) {
    '0' <= c <= '9'
  }

  /** Upper-cases one ASCII letter; every other character is left alone. */
  function UpperChar(c: char): (u: char)
    ensures !IsLower(u)
    ensures IsLower(c) ==> 'A' <= u <= 'Z' && u as int - 'A' as int == c as int - 'a' as int
    ensures !IsLower(c) ==> u == c
  {
    if IsLower(c) then (c as int - 'a' as int + 'A' as int) as char else c
  }

  /** Upper-cases a whole string, character by character. */
  function Upper(s: string): (r: string)
    ensures |r| == |s|
    ensures forall i :: 0 <= i < |s| ==> r[i] == UpperChar(s[i])
  {
    if s == [] then [] else [UpperChar(s[0])] + Upper(s[1..])
  }

  /** Upper-casing twice is the same as upper-casing once. */
  lemma UpperIdempotent(s: string)
    ensures Upper(Upper(s)) == Upper(s)
  {
    var u := Upper(s);
    forall i | 0 <= i < |u|
      ensures Upper(u)[i] == u[i]
    {
      assert !IsLower(u[i]);
    }
  }

  /** Two strings that differ only in the case of ASCII letters upper-case alike. */
  lemma UpperIgnoresCase(a: string, b: string)
    requires |a| == |b|
    requires forall i :: 0 <= i < |a| ==> UpperChar(a[i]) == UpperChar(b[i])
    ensures Upper(a) == Upper(b)
  {
  }

  function DigitChar(d: nat): (c: char)
    requires d < 10
    ensures IsDigit(c)
    ensures c as int - '0' as int == d
  {
    ('0' as int + d) as char
  }

  function DigitValue(c: char): (d: nat)
    requires IsDigit(c)
    ensures d < 10
    ensures DigitChar(d) == c
  {
    c as int - '0' as int
  }

  /** The decimal digits of `n`, most significant first, without leading zeros. */
  function Decimal(n: nat): (s: string)
    ensures |s| >= 1
    ensures forall i :: 0 <= i < |s| ==> IsDigit(s[i])
    ensures n > 0 ==> s[0] != '0'
    decreases n
  {
    if n < 10 then [DigitChar(n)] else Decimal(n / 10) + [DigitChar(n % 10)]
  }

  /** Reads a string of decimal digits back as a number. */
  function ParseDecimal(s: string): nat
    requires forall i :: 0 <= i < |s| ==> IsDigit(s[i])
    decreases |s|
  {
    if s == [] then 0 else ParseDecimal(s[..|s| - 1]) * 10 + DigitValue(s[|s| - 1])
  }

  /** Reading the rendering of `n` gives `n` back, so distinct counters render distinctly. */
  lemma {:induction false} DecimalRoundTrip(n: nat)
    ensures ParseDecimal(Decimal(n)) == n
    decreases n
  {
    var s := Decimal(n);
    if n >= 10 {
      DecimalRoundTrip(n / 10);
      assert s[..|s| - 1] == Decimal(n / 10);
    }
  }

  lemma DecimalInjective(m: nat, n: nat)
    requires Decimal(m) == Decimal(n)
    ensures m == n
  {
    DecimalRoundTrip(m);
    DecimalRoundTrip(n);
  }
}

=== FILE: thresholds.dfy ===
/**
  The named match thresholds of the acronym tool: the level a user picks on
  the command line (`loose`, `medium` or `strict`) and the ratio a term must
  exceed to be reported at that level.
 */
module Thresholds {
  import opened Outcomes

  /** The threshold table, keyed by level name. */
  const MatchThresholds: map<string, int> := map["loose" := 50, "medium" := 70, "strict" := 90]

  /** The level used when none is given on the command line. */
  const DefaultLevel: string := "strict"

  /**
    The level name the tool looks up: the one given on the command line,
    or the default when the option is absent, which is the strict level.
   */
  function LevelName(given: Option<string>): (level: string)
    ensures given.Some? ==> level == given.value
    ensures given.None? ==> Threshold(level) == Some(90)
  {
    match given
    case Some(name) => name
    case None => DefaultLevel
  }

  /**
    Looks a level name up in the table. An unknown name has no threshold:
    the tool fails on it instead of searching.
   */
  function Threshold(level: string): (r: Option<int>)
    ensures r == Some(50) <==> level == "loose"
    ensures r == Some(70) <==> level == "medium"
    ensures r == Some(90) <==> level == "strict"
    ensures r.None? <==> level != "loose" && level != "medium" && level != "strict"
  {
    if level in MatchThresholds then Some(MatchThresholds[level]) else None
  }

  /** Every threshold lies on the ratio scale, and a stricter level demands strictly more. */
  lemma ThresholdsOrdered()
    ensures forall level :: Threshold(level).Some? ==> 0 <= Threshold(level).value <= 100
    ensures Threshold("loose").value < Threshold("medium").value < Threshold("strict").value
  {
  }
}
